=== FILE: README.md ===
# Revenue entry store: a Dafny model

This project models the core of a small Flask service that keeps revenue
entries in one SQLite table, `revenues`, behind a JSON API. It covers the
table's schema constraints, the request checks in front of it, and the four
API handlers:

- create (`POST /api/revenues`),
- update (`PUT /api/revenues/<id>`),
- delete (`DELETE /api/revenues/<id>`),
- list (`GET /api/revenues`).

Each handler is a pure transition from the table before a request to the
response and the table after it.

| module | file | models |
|---|---|---|
| `Wrappers` | `wrappers.dfy` | `Option` (a value or JSON `null`) and `Result` (a value or a raised exception) |
| `Dates` | `dates.dfy` | `datetime.strptime(value, "%Y-%m-%d")`, following CPython's pattern pieces, the "unconverted data remains" check and `datetime`'s range check |
| `Table` | `table.dfy` | the `revenues` table: AUTOINCREMENT ids, NOT NULL and UNIQUE constraints, and the INSERT, UPDATE and DELETE statements, each all-or-nothing |
| `Validation` | `validation.dfy` | the presence checks of create and update, and the date and amount checks both share |
| `Listing` | `listing.dfy` | `ORDER BY date DESC, id DESC` with `date` compared as text; an insertion sort proved to return every row once in that order |
| `Handlers` | `handlers.dfy` | the four handlers, with status codes and messages |
| `History` | `history.dfy` | sequences of writing requests; ids are issued one after another and never reused |

A request body is a map from keys to a string or `null`. Python's `float()`
is a parameter, `toFloat`. Its result is a `Float` held as the IEEE 754 bit
pattern, so that NaN can be recognised. The `created_at` timestamp
(`datetime('now')`) is also a parameter, `now`. An exception that escapes a
handler is the response `Raised(e)`, which Flask answers with status 500.

Behaviour the model keeps as the code has it, where a reader would expect
otherwise:

- The date check is looser than the `-- ISO YYYY-MM-DD` the schema's comment
  names (app.py:24). It accepts a one-digit month,
  a one-digit day, and a space before a one-digit day (`2024-2- 9`). It
  refuses year `0000`.
- An update that would duplicate another row's `revenue_id` is not reported
  as a conflict. The UNIQUE constraint rolls it back and the
  `IntegrityError` escapes, so the answer is 500.
- Update checks only that the five keys are present. It writes empty
  strings. A `null` `revenue_id`, `source` or `category` on an existing row
  fails the NOT NULL constraint and escapes (500). A `null` `date` is
  refused earlier: `strptime` raises `TypeError` and the answer is 400
  "Invalid date or amount format".
- A NaN amount (`float("nan")`) binds as SQL NULL and fails the NOT NULL
  constraint. On create, the handler catches that `IntegrityError` and
  answers 409 "revenue_id must be unique". On update it escapes (500).
- An amount of -0.0 (`"-0"`) is stored by the REAL column as the integer 0
  and listed as `0.0`. Every other float is listed as it was bound.
- The list orders `date` as text. `2024-2-1` is listed before `2024-12-01`.

## Model

| member | source | states |
|---|---|---|
| `Dates.IsCalendarDate` | app.py:57 | the dates `datetime.date` accepts: year 1 to 9999, month 1 to 12, and a day within the Gregorian month |
| `Dates.ParseDate` | app.py:57 | whatever `strptime("%Y-%m-%d")` accepts is a real Gregorian date with year 1 to 9999 |
| `Dates.MonthTokenLength` | app.py:57 | the `%m` group matches one or two digits and is followed by `-` |
| `Dates.DayTokenLength` | app.py:57 | the `%d` group matches two digits, one digit, or a space and one digit, inside the text |
| `Dates.ParseDateExactly` | app.py:57 | the date check returns `dt` if and only if the text is a spelling of the real date `dt`: four-digit year, `MM` or `M`, and `DD`, `D` or a space and `D` |
| `Dates.ParseDateSound` | app.py:83 | every accepted text is a spelling of the date returned |
| `Dates.ParseDateComplete` | app.py:83 | every spelling of a real date is accepted, with that date |
| `Dates.IsoRoundTrip` | app.py:24 | every strict ISO 8601 `YYYY-MM-DD` date that `datetime` can hold is accepted and read back as itself |
| `Dates.OneDigitMonthAccepted` | app.py:57 | `2024-2-29` is accepted as February 29, 2024 |
| `Dates.SpacedDayAccepted` | app.py:57 | `2024-02- 9` is accepted as February 9, 2024 |
| `Dates.NoLeapDayIn2023` | app.py:57 | `2023-02-29` is refused |
| `Dates.YearZeroRefused` | app.py:57 | `0000-01-01` matches the pattern but is refused |
| `Table.StoredAmount` | app.py:26 | a REAL column gives back every float bit for bit except -0.0, which comes back as +0.0; NaN-ness is kept |
| `Table.Valid` | app.py:21-27 | what SQLite keeps true of the table: ids from 1 up to the last issued one, which is at most 2^63 - 1; no NaN (NULL) amount; no two rows with one `revenue_id` |
| `Table.CheckNotNull` | app.py:23-27 | the bound values pass NOT NULL exactly when no text column is `null` and the amount is not NaN |
| `Table.Insert` | app.py:65-69 | an insert succeeds exactly when an id is left, NOT NULL holds and the `revenue_id` is free. It adds one row under one more than the largest id ever issued, holding the bound values with the amount as the REAL column stores it, and keeps the table valid |
| `Table.Update` | app.py:90-96 | an update of an absent id changes 0 rows; on a present id it fails on NOT NULL or on another row's `revenue_id`; otherwise it replaces the five fields, the amount as the REAL column stores it, and keeps `created_at` and the other rows |
| `Table.Delete` | app.py:106-107 | a delete removes exactly the given id if present, keeps the id sequence, and raises only for ids above 2^63 - 1 |
| `Table.CreateIfNotExists` | app.py:15-30 | creating the schema keeps an existing table as it is; a new table holds no rows and has issued no id, so it is valid |
| `Validation.Missing` | app.py:52 | a key is missing when it is absent, or its value is `""` or `null` |
| `Validation.NoneMissing` | app.py:51-53 | create's presence check passes: none of the five keys is absent, `""` or `null` |
| `Validation.AllPresent` | app.py:80 | update's check: each of the five keys is present, whatever its value |
| `Validation.DateParses` | app.py:57 | `strptime` returns: the value is a string and the date check accepts it |
| `Validation.FormatsOk` | app.py:56-59 | the `try` block of create (and of update, app.py:82-86) completes: the date parses and `float()` accepts the amount |
| `Validation.Amount` | app.py:58 | the float `float()` returns for the amount |
| `Validation.FirstMissing` | app.py:51-53 | the index found is the first required key that is absent, `""` or `null`, in the order `revenue_id, date, source, amount, category` |
| `Validation.NotMissing` | app.py:52 | a field that passed create's check is present, not `null` and not empty |
| `Validation.PresenceAsymmetry` | app.py:80 | create's check passes exactly when update's check passes and no value is `null` or empty |
| `Validation.Bound` | app.py:68 | the date bound to the statement is one that `strptime` accepted |
| `Handlers.Inv` | app.py:21-27 | the table state every handler keeps: ids from 1 up to the last issued one, no NaN amount, unique `revenue_id`, every `date` accepted by `strptime` |
| `Handlers.CreateRevenue` | app.py:48-74 | create answers 400 for a missing field or a bad date or amount; 201 exactly when all checks, NOT NULL and uniqueness pass; 409 "revenue_id must be unique" for any other constraint failure; 500 when no id is left. The table changes only on 201 and the invariant is kept |
| `Handlers.CreateReportsFirstMissing` | app.py:50-53 | the 400 message names the first missing field, and the table is unchanged |
| `Handlers.CreateAddsOneRow` | app.py:62-74 | a 201 adds exactly one row with the submitted fields as stored and `now`, under an id above every id ever issued, and leaves the other rows alone |
| `Handlers.SubmittedFields` | app.py:65-69 | the stored row holds the submitted `revenue_id`, `date`, `source`, `category`, none of them empty, and the parsed amount, with -0.0 read back as +0.0 |
| `Handlers.NegativeZeroListedAsZero` | app.py:58-69 | a create with amount -0.0 succeeds and the new row holds +0.0 |
| `Handlers.DuplicateCreateConflicts` | app.py:70-71 | after one successful create, a second create with the same `revenue_id` answers 409 and leaves the table as the first left it |
| `Handlers.NaNAmountReportedAsDuplicate` | app.py:70-71 | a NaN amount with a fresh `revenue_id` is answered 409 "revenue_id must be unique" and nothing is written |
| `Handlers.UpdateRevenue` | app.py:77-100 | update answers 400 "Expecting all fields: [...]" for a missing key, 400 for a bad date or amount, 404 "Record not found" for an absent id, and 200 "Updated" exactly when the row exists and the constraints pass. The table changes only on 200, the id sequence never moves, and the invariant is kept |
| `Handlers.UpdateReplacesFields` | app.py:88-100 | a 200 replaces exactly the five fields of the row with the submitted ones as stored and keeps its id, its `created_at` and every other row |
| `Handlers.UpdateAcceptsEmptyRevenueId` | app.py:79-81 | an empty `revenue_id` that create refuses with "Missing field: revenue_id" is written by update |
| `Handlers.UpdateCollisionRollsBack` | app.py:89-95 | an update to another row's `revenue_id` raises the UNIQUE `IntegrityError` (500) and leaves the table unchanged |
| `Handlers.UpdateNullRevenueIdRaises` | app.py:89-95 | a `null` `revenue_id` on an existing row raises the NOT NULL `IntegrityError` and leaves the table unchanged |
| `Handlers.DeleteRevenue` | app.py:103-111 | delete answers 200 exactly when the id is present, removing only that row; 404 with the table unchanged otherwise; 500 for ids above 2^63 - 1. It keeps the invariant |
| `Handlers.DeleteTwice` | app.py:104-111 | deleting a present id gives 200; deleting it again gives 404 and changes nothing |
| `Handlers.ListRevenues` | app.py:40-45 | list answers 200 with every row exactly once, in `date`-text-descending then id-descending order |
| `Listing.TextLess` | app.py:43 | the BINARY collation on `date`: character by character, a proper prefix first |
| `Listing.Before` | app.py:43 | `ORDER BY date DESC, id DESC`: a later `date` text first, then a larger id |
| `Listing.Sorted` | app.py:43 | every earlier row of the listing comes before every later one |
| `Listing.SelectOrdered` | app.py:43 | the selection holds every row of the table once, with its stored contents, sorted by the `ORDER BY` key |
| `Listing.InsertSorted` | app.py:43 | inserting a row with a new id into a sorted listing keeps it sorted and adds exactly that row |
| `Listing.SortedUnique` | app.py:43 | two sorted listings of the same rows are equal, so the order of the list is fully determined |
| `Listing.ThreeDatesListed` | app.py:43 | entries dated 2024-01-01, 2024-03-01 and 2024-02-01 are listed March, February, January |
| `Listing.TextOrderIsNotDateOrder` | app.py:43 | `2024-2-1` is listed before the later date `2024-12-01` |
| `Listing.TextLessTransitive` | app.py:24 | the text order of `date` is transitive |
| `Listing.TextLessTotal` | app.py:24 | any two different `date` texts are ordered one way or the other |
| `History.Step` | app.py:47-111 | a writing request is handled by the create, update or delete handler on the current table |
| `History.Run` | app.py:22 | over any sequence of requests, successful creates get the ids one after another above the largest id issued before; no other id appears; the invariant holds throughout |
| `History.FreshTableIssuesFromOne` | app.py:21 | on a newly created table the successful creates of any history get the ids 1, 2, 3, ... in order |
| `History.IdsNeverReused` | app.py:22 | no two creates get the same id, and none gets an id already present |
| `History.DeletedIdNeverReissued` | app.py:106 | after a row is deleted, its id is never issued again and never reappears |

## Left out

- Flask routing, JSON decoding and `jsonify`. A request body is a map from
  keys to strings or `null`. Bodies that are not JSON objects, and field
  values that are numbers, booleans, arrays or objects, are not modelled.
  A JSON number is not the same as its text: a JSON integer decodes to a
  Python `int`, so `float()` of a huge integer raises `OverflowError` (400)
  where the same digits as a string give `inf` (201), and JSON `-0` decodes
  to `0` where the string `"-0"` gives -0.0.
- Python `float()` on the amount. Its syntax includes `inf`, `nan`,
  underscores and surrounding whitespace, and it returns floating-point
  values. It is the parameter `toFloat`, and the model never looks inside
  the value it returns except to tell NaN apart.
- Text values holding a lone surrogate (a JSON escape such as `"\ud800"`).
  Python decodes them into a `str` that passes the presence checks. In
  `revenue_id`, `source` or `category`, `sqlite3` cannot encode it as UTF-8
  when binding it (app.py:68, app.py:94). That error is not an
  `IntegrityError`, so create and update answer 500, even an update of an
  absent id. In `date` or `amount` the handlers answer 400 "Invalid date
  or amount format" before binding, because neither `strptime` nor
  `float()` accepts a surrogate. Dafny strings cannot hold a lone
  surrogate, so `Handlers.CreateRevenue` and `Handlers.UpdateRevenue` say
  nothing about these bodies.
- Python's `\d`, which the year and the `[12]\d` day alternative use,
  also matches non-ASCII decimal digits. The model accepts ASCII digits
  only.
- `created_at` from `datetime('now')` is the parameter `now`. There is no
  clock.
- The SQLite connection lifecycle (`get_conn`, `conn.close`, `with conn`).
  Only its effect is modelled: each statement applies completely or not at
  all. A connection that stays unclosed after an exception has no effect
  on the table.
- Static UI serving and the two `/` routes (app.py:34-36, app.py:117-119).
  They contain no logic.
- `app.run` and the process setup. `init_db` appears only as
  `Table.CreateIfNotExists`.
- Concurrency between requests, which the code leaves entirely to SQLite.
- Negative ids in the URL. Flask's `int` converter does not route them, so
  the handlers take a natural number.
- The body of Flask's 500 page. An escaped exception is kept as the error
  value, with status 500.

=== FILE: dates.dfy ===
/**
 The date check of the revenue handlers: `datetime.strptime(value, "%Y-%m-%d")`.

 CPython turns the format into a regular expression whose pieces are
   %Y  `\d\d\d\d`
   %m  `1[0-2]|0[1-9]|[1-9]`
   %d  `3[01]|[12]\d|0[1-9]|[1-9]| [1-9]`
 matches it at the start of the text, refuses any unconverted text after the
 match, and finally builds a `datetime`, which refuses year 0 and days the
 month does not have. `ParseDate` follows those steps; `ParseDateExactly`
 states the resulting language independently: the year in four digits, the
 month in one or two digits, the day in two digits, one digit, or a space and
 one digit, of a real Gregorian date.
 */
module Dates {
  import opened Wrappers

  /** A calendar date as `datetime.date` holds it. */
  datatype Date = Date(year: int, month: int, day: int)

  const MinYear: int := 1
  const MaxYear: int := 9999

  predicate IsLeapYear(y: int) {
    y % 4 == 0 && (y % 100 != 0 || y % 400 == 0)
  }

  function DaysInMonth(y: int, m: int): int
    requires 1 <= m <= 12
  {
    if m == 2 then (if IsLeapYear(y) then 29 else 28)
    else if m == 4 || m == 6 || m == 9 || m == 11 then 30
    else 31
  }

  /** The dates `datetime.date(year, month, day)` accepts. */
  predicate IsCalendarDate(d: Date) {
    && MinYear <= d.year <= MaxYear
    && 1 <= d.month <= 12
    && 1 <= d.day <= DaysInMonth(d.year, d.month)
  }

  // ---------------------------------------------------------------------
  // Digits

  predicate IsDigit(c: char) {
    '0' <= c <= '9'
  }

  predicate AllDigits(t: string) {
    forall k :: 0 <= k < |t| ==> IsDigit(t[k])
  }

  function DigitValue(c: char): int
    requires IsDigit(c)
  {
    c as int - '0' as int
  }

  function Digit(n: int): char
    requires 0 <= n <= 9
  {
    ('0' as int + n) as char
  }

  /** `int()` of a string of decimal digits. */
  function Number(t: string): nat
    requires AllDigits(t)
    decreases |t|
  {
    if |t| == 0 then 0 else 10 * Number(t[..|t| - 1]) + DigitValue(t[|t| - 1])
  }

  // ---------------------------------------------------------------------
  // The regular expression, piece by piece

  predicate CharIs(s: string, i: int, c: char) {
    0 <= i < |s| && s[i] == c
  }

  predicate CharIn(s: string, i: int, lo: char, hi: char) {
    0 <= i < |s| && lo <= s[i] <= hi
  }

  /** The length of the `%m` group at `i` when the pattern's next literal `-`
      must follow it: the alternatives `1[0-2]`, `0[1-9]`, `[1-9]` are tried
      in that order, backtracking into the next one when the `-` is not there.
      Zero means no alternative fits. */
  function MonthTokenLength(s: string, i: nat): (n: nat)
    ensures n == 0 || n == 1 || n == 2
    ensures n > 0 ==> i + n < |s| && s[i + n] == '-' && AllDigits(s[i..i + n])
  {
    if CharIs(s, i, '1') && CharIn(s, i + 1, '0', '2') && CharIs(s, i + 2, '-') then 2
    else if CharIs(s, i, '0') && CharIn(s, i + 1, '1', '9') && CharIs(s, i + 2, '-') then 2
    else if CharIn(s, i, '1', '9') && CharIs(s, i + 1, '-') then 1
    else 0
  }

  /** The length of the `%d` group at `i`. Nothing follows it in the pattern,
      so the first alternative of `3[01]|[12]\d|0[1-9]|[1-9]| [1-9]` that
      matches is kept. Zero means no alternative fits. */
  function DayTokenLength(s: string, i: nat): (n: nat)
    ensures n == 0 || n == 1 || n == 2
    ensures n > 0 ==> i + n <= |s|
    ensures n > 0 && s[i] == ' ' ==> n == 2 && IsDigit(s[i + 1])
    ensures n > 0 && s[i] != ' ' ==> AllDigits(s[i..i + n])
  {
    if CharIs(s, i, '3') && CharIn(s, i + 1, '0', '1') then 2
    else if CharIn(s, i, '1', '2') && CharIn(s, i + 1, '0', '9') then 2
    else if CharIs(s, i, '0') && CharIn(s, i + 1, '1', '9') then 2
    else if CharIn(s, i, '1', '9') then 1
    else if CharIs(s, i, ' ') && CharIn(s, i + 1, '1', '9') then 2
    else 0
  }

  /** `datetime.strptime(s, "%Y-%m-%d")`: `Some` of the date it returns, or
      `None` where it raises `ValueError`. */
  function ParseDate(s: string): (r: Option<Date>)
    ensures r.Some? ==> IsCalendarDate(r.value)
  {
    if |s| < 5 || !AllDigits(s[..4]) || s[4] != '-' then None
    else
      var m := MonthTokenLength(s, 5);
      if m == 0 then None
      else
        var i := 5 + m + 1;
        var d := DayTokenLength(s, i);
        // a match that stops short of the end is "unconverted data remains"
        if d == 0 || i + d != |s| then None
        else
          // int() skips the leading space the last day alternative allows
          var dayDigits := if s[i] == ' ' then s[i + 1..i + d] else s[i..i + d];
          var date := Date(Number(s[..4]), Number(s[5..5 + m]), Number(dayDigits));
          if IsCalendarDate(date) then Some(date) else None
  }

  // ---------------------------------------------------------------------
  // The accepted spellings, stated independently of the matcher

  function Pad2(n: int): string
    requires 0 <= n <= 99
  {
    [Digit(n / 10), Digit(n % 10)]
  }

  function Pad4(n: int): string
    requires 0 <= n <= 9999
  {
    [Digit(n / 1000), Digit(n / 100 % 10), Digit(n / 10 % 10), Digit(n % 10)]
  }

  function MonthSpellings(m: int): set<string>
    requires 1 <= m <= 12
  {
    {Pad2(m)} + (if m < 10 then {[Digit(m)]} else {})
  }

  function DaySpellings(d: int): set<string>
    requires 1 <= d <= 31
  {
    {Pad2(d)} + (if d < 10 then {[Digit(d)], [' ', Digit(d)]} else {})
  }

  /** Every text that names the date `dt` in the loose `%Y-%m-%d` form. */
  function Spellings(dt: Date): set<string>
    requires IsCalendarDate(dt)
  {
    set ms, ds | ms in MonthSpellings(dt.month) && ds in DaySpellings(dt.day)
      :: Pad4(dt.year) + "-" + ms + "-" + ds
  }

  /** The strict ISO 8601 extended calendar-date form YYYY-MM-DD. */
  function FormatIso(dt: Date): string
    requires IsCalendarDate(dt)
  {
    Pad4(dt.year) + "-" + Pad2(dt.month) + "-" + Pad2(dt.day)
  }

  // ---------------------------------------------------------------------
  // Lemmas

  lemma Number1(t: string)
    requires |t| == 1 && AllDigits(t)
    ensures Number(t) == DigitValue(t[0])
  {
    assert t[..0] == [];
  }

  lemma Number2(t: string)
    requires |t| == 2 && AllDigits(t)
    ensures Number(t) == 10 * DigitValue(t[0]) + DigitValue(t[1])
  {
    Number1(t[..1]);
  }

  lemma Number4(t: string)
    requires |t| == 4 && AllDigits(t)
    ensures Number(t) == 1000 * DigitValue(t[0]) + 100 * DigitValue(t[1]) + 10 * DigitValue(t[2]) + DigitValue(t[3])
  {
    var t3 := t[..3];
    assert t3[..2] == t[..2];
    Number2(t[..2]);
    assert Number(t3) == 10 * Number(t[..2]) + DigitValue(t[2]);
  }

  lemma NumberOfPad2(n: int)
    requires 0 <= n <= 99
    ensures AllDigits(Pad2(n)) && Number(Pad2(n)) == n
  {
    Number2(Pad2(n));
  }

  lemma NumberOfPad4(n: int)
    requires 0 <= n <= 9999
    ensures AllDigits(Pad4(n)) && Number(Pad4(n)) == n
  {
    Number4(Pad4(n));
    var a, b, c, d := n / 1000, n / 100 % 10, n / 10 % 10, n % 10;
    assert n / 100 == 10 * a + b;
    assert n / 10 == 10 * (n / 100) + c;
    assert n == 10 * (n / 10) + d;
  }

  lemma Pad2OfDigits(t: string)
    requires |t| == 2 && AllDigits(t)
    ensures Number(t) <= 99 && Pad2(Number(t)) == t
  {
    Number2(t);
  }

  lemma Pad4OfDigits(t: string)
    requires |t| == 4 && AllDigits(t)
    ensures Number(t) <= 9999 && Pad4(Number(t)) == t
  {
    Number4(t);
    var a, b, c, d := DigitValue(t[0]), DigitValue(t[1]), DigitValue(t[2]), DigitValue(t[3]);
    var n := Number(t);
    Divide1000(n, a, 100 * b + 10 * c + d);
    Divide100(n, 10 * a + b, 10 * c + d);
    Divide10(n, 100 * a + 10 * b + c, d);
    Divide10(10 * a + b, a, b);
    Divide10(100 * a + 10 * b + c, 10 * a + b, c);
  }

  lemma Divide10(n: int, q: int, r: int)
    requires 0 <= r < 10 && n == 10 * q + r
    ensures n / 10 == q && n % 10 == r
  {
  }

  lemma Divide100(n: int, q: int, r: int)
    requires 0 <= r < 100 && n == 100 * q + r
    ensures n / 100 == q
  {
  }

  lemma Divide1000(n: int, q: int, r: int)
    requires 0 <= r < 1000 && n == 1000 * q + r
    ensures n / 1000 == q
  {
  }

  lemma OneDigit(t: string)
    requires |t| == 1 && AllDigits(t)
    ensures Number(t) <= 9 && t == [Digit(Number(t))]
  {
    Number1(t);
  }

  /** A one- or two-digit month text is one of its month's spellings. */
  lemma MonthSpelled(ms: string)
    requires (|ms| == 1 || |ms| == 2) && AllDigits(ms) && 1 <= Number(ms) <= 12
    ensures ms in MonthSpellings(Number(ms))
  {
    if |ms| == 2 {
      Pad2OfDigits(ms);
    } else {
      OneDigit(ms);
    }
  }

  /** A one- or two-digit day text is one of its day's spellings. */
  lemma DaySpelled(ds: string)
    requires (|ds| == 1 || |ds| == 2) && AllDigits(ds) && 1 <= Number(ds) <= 31
    ensures ds in DaySpellings(Number(ds))
  {
    if |ds| == 2 {
      Pad2OfDigits(ds);
    } else {
      OneDigit(ds);
    }
  }

  /** A space and one digit is a spelling of that digit's day. */
  lemma SpacedDaySpelled(ds: string)
    requires |ds| == 2 && ds[0] == ' ' && AllDigits(ds[1..]) && 1 <= Number(ds[1..]) <= 31
    ensures ds in DaySpellings(Number(ds[1..]))
  {
    var n := Number(ds[1..]);
    OneDigit(ds[1..]);
    assert ds == [' ', Digit(n)];
  }

  /** Spelling each part of a date spells the date. */
  lemma Spelled(dt: Date, ys: string, ms: string, ds: string)
    requires IsCalendarDate(dt) && ys == Pad4(dt.year)
    requires ms in MonthSpellings(dt.month) && ds in DaySpellings(dt.day)
    ensures ys + "-" + ms + "-" + ds in Spellings(dt)
  {
  }

  /** The day group the matcher consumed at the end of `s` is a spelling of
      the day `int()` reads from it. */
  lemma DayGroupSpelled(s: string, i: nat)
    requires 0 < DayTokenLength(s, i) && i + DayTokenLength(s, i) == |s|
    ensures var d := DayTokenLength(s, i);
      var digits := if s[i] == ' ' then s[i + 1..i + d] else s[i..i + d];
      AllDigits(digits) && (1 <= Number(digits) <= 31 ==> s[i..] in DaySpellings(Number(digits)))
  {
    var d := DayTokenLength(s, i);
    var ds := s[i..];
    if s[i] == ' ' {
      assert ds[1..] == s[i + 1..i + d];
      if 1 <= Number(ds[1..]) <= 31 {
        SpacedDaySpelled(ds);
      }
    } else {
      assert ds == s[i..i + d];
      if 1 <= Number(ds) <= 31 {
        DaySpelled(ds);
      }
    }
  }

  /** A text with `-` at 4 and at `5 + m` is its three parts joined by `-`. */
  lemma Joined(s: string, m: nat)
    requires 5 + m < |s| && s[4] == '-' && s[5 + m] == '-'
    ensures s == s[..4] + "-" + s[5..5 + m] + "-" + s[5 + m + 1..]
  {
  }

  /** Whatever `ParseDate` accepts is a spelling of the date it returns. */
  lemma {:induction false} ParseDateSound(s: string)
    requires ParseDate(s).Some?
    ensures s in Spellings(ParseDate(s).value)
  {
    var dt := ParseDate(s).value;
    var m := MonthTokenLength(s, 5);
    var i := 5 + m + 1;
    DayGroupSpelled(s, i);
    Joined(s, m);
    Pad4OfDigits(s[..4]);
    MonthSpelled(s[5..5 + m]);
    Spelled(dt, s[..4], s[5..5 + m], s[i..]);
  }

  /** The `%m` matcher consumes exactly the month spelling before the `-`. */
  lemma MonthTokenOfSpelling(s: string, ms: string, m: int)
    requires 1 <= m <= 12 && ms in MonthSpellings(m)
    requires 5 + |ms| < |s| && s[5..5 + |ms|] == ms && s[5 + |ms|] == '-'
    ensures MonthTokenLength(s, 5) == |ms|
    ensures AllDigits(ms) && Number(ms) == m
  {
    if ms == Pad2(m) {
      NumberOfPad2(m);
      assert s[5] == ms[0] && s[6] == ms[1];
    } else {
      assert ms == [Digit(m)];
      assert s[5] == ms[0];
      assert ms[..0] == [];
    }
  }

  /** The `%d` matcher consumes exactly the day spelling. */
  lemma DayTokenOfSpelling(s: string, i: nat, ds: string, d: int)
    requires 1 <= d <= 31 && ds in DaySpellings(d)
    requires i + |ds| == |s| && s[i..] == ds
    ensures DayTokenLength(s, i) == |ds|
    ensures var digits := if s[i] == ' ' then s[i + 1..i + |ds|] else s[i..i + |ds|];
            AllDigits(digits) && Number(digits) == d
  {
    assert s[i..i + |ds|] == ds;
    if ds == Pad2(d) {
      NumberOfPad2(d);
      assert s[i] == ds[0] && s[i + 1] == ds[1];
    } else if ds == [Digit(d)] {
      assert s[i] == ds[0];
      assert ds[..0] == [];
    } else {
      assert ds == [' ', Digit(d)];
      assert s[i] == ' ' && s[i + 1] == Digit(d);
      assert s[i + 1..i + 2] == [Digit(d)];
      assert [Digit(d)][..0] == [];
    }
  }

  /** Every spelling of a real date is accepted, with that date. */
  lemma {:induction false} ParseDateComplete(dt: Date, s: string)
    requires IsCalendarDate(dt) && s in Spellings(dt)
    ensures ParseDate(s) == Some(dt)
  {
    var ms, ds :| ms in MonthSpellings(dt.month) && ds in DaySpellings(dt.day)
      && s == Pad4(dt.year) + "-" + ms + "-" + ds;
    var ys := Pad4(dt.year);
    NumberOfPad4(dt.year);
    assert s[..4] == ys;
    assert s[4] == '-';
    assert s[5..5 + |ms|] == ms;
    assert s[5 + |ms|] == '-';
    MonthTokenOfSpelling(s, ms, dt.month);
    var i := 5 + |ms| + 1;
    assert s[i..] == ds;
    DayTokenOfSpelling(s, i, ds, dt.day);
  }

  /** The language of `%Y-%m-%d`: `ParseDate` returns `dt` exactly for the
      spellings of a real calendar date `dt`. */
  lemma ParseDateExactly(s: string, dt: Date)
    ensures ParseDate(s) == Some(dt) <==> IsCalendarDate(dt) && s in Spellings(dt)
  {
    if ParseDate(s) == Some(dt) {
      ParseDateSound(s);
    }
    if IsCalendarDate(dt) && s in Spellings(dt) {
      ParseDateComplete(dt, s);
    }
  }

  /** Strict ISO 8601 dates round-trip through the check. */
  lemma IsoRoundTrip(dt: Date)
    requires IsCalendarDate(dt)
    ensures ParseDate(FormatIso(dt)) == Some(dt)
  {
    assert Pad2(dt.month) in MonthSpellings(dt.month);
    assert Pad2(dt.day) in DaySpellings(dt.day);
    assert FormatIso(dt) in Spellings(dt);
    ParseDateComplete(dt, FormatIso(dt));
  }

  /** The check is looser than ISO 8601: a one-digit month is accepted. */
  lemma OneDigitMonthAccepted()
    ensures ParseDate("2024-2-29") == Some(Date(2024, 2, 29))
  {
    var a := Date(2024, 2, 29);
    assert [Digit(2)] in MonthSpellings(2) && Pad2(29) in DaySpellings(29);
    assert "2024-2-29" == Pad4(2024) + "-" + [Digit(2)] + "-" + Pad2(29);
    ParseDateComplete(a, "2024-2-29");
  }

  /** The check is looser than ISO 8601: a space before a one-digit day is accepted. */
  lemma SpacedDayAccepted()
    ensures ParseDate("2024-02- 9") == Some(Date(2024, 2, 9))
  {
    var b := Date(2024, 2, 9);
    assert Pad2(2) in MonthSpellings(2) && [' ', Digit(9)] in DaySpellings(9);
    assert "2024-02- 9" == Pad4(2024) + "-" + Pad2(2) + "-" + [' ', Digit(9)];
    ParseDateComplete(b, "2024-02- 9");
  }

  /** February 29 is refused outside leap years. */
  lemma NoLeapDayIn2023()
    ensures ParseDate("2023-02-29").None?
  {
    var c := "2023-02-29";
    assert c[..4] == "2023" && c[5..7] == "02" && c[8..10] == "29";
    Number4(c[..4]);
    Number2(c[5..7]);
    Number2(c[8..10]);
  }

  /** Year 0 matches the pattern but `datetime` refuses it. */
  lemma YearZeroRefused()
    ensures ParseDate("0000-01-01").None?
  {
    var z := "0000-01-01";
    assert z[..4] == "0000";
    Number4(z[..4]);
  }
}

=== FILE: handlers.dfy ===
/**
 The four JSON handlers of the revenue API, each a transition from the table
 before the request to the response and the table after it.

 A handler answers with a JSON body and a status, or lets an exception
 escape; Flask answers an escaped exception with status 500. Every handler
 leaves the table as it was unless it answers with its success status.
 */
module Handlers {
  import opened Wrappers
  import opened Dates
  import opened Table
  import opened Validation
  import opened Listing

  datatype Body = Message(text: string) | Error(text: string) | Entries(rows: seq<Row>)

  datatype Response = Reply(status: nat, body: Body) | Raised(error: DbError)

  function Status(r: Response): nat {
    if r.Reply? then r.status else 500
  }

  const InvalidFormat: string := "Invalid date or amount format"
  const NotUnique: string := "revenue_id must be unique"
  const NotFound: string := "Record not found"
  /** Update's 400 message: the five required keys, formatted as Python
      prints a list of strings. */
  const ExpectingAllFields: string := "Expecting all fields: ['revenue_id', 'date', 'source', 'amount', 'category']"

  function MissingField(k: string): string {
    "Missing field: " + k
  }

  /** The table invariant the handlers keep: SQLite's constraints, and every
      stored date is one `strptime` accepted. */
  predicate Inv(t: Table) {
    Valid(t) && forall id :: id in t.rows ==> ParseDate(t.rows[id].fields.date).Some?
  }

  /** The five columns a body that passed the checks writes, as they are
      read back. */
  function Submitted(req: Request, toFloat: FloatParser): Fields
    requires AllPresent(req) && FormatsOk(req, toFloat) && CheckNotNull(Bound(req, toFloat)).Ok?
  {
    Stored(CheckNotNull(Bound(req, toFloat)).value)
  }

  // ---------------------------------------------------------------------
  // POST /api/revenues

  /** Everything a create needs to succeed. */
  predicate CreateAccepted(t: Table, req: Request, toFloat: FloatParser) {
    && NoneMissing(req)
    && FormatsOk(req, toFloat)
    && t.lastId < MaxRowId
    && !IsNaN(Amount(req, toFloat))
    && (NotMissing(req, "revenue_id"); !Holds(t.rows, req["revenue_id"].value))
  }

  function CreateRevenue(t: Table, req: Request, now: string, toFloat: FloatParser): (out: (Response, Table))
    ensures out.1 == t || out.0 == Reply(201, Message("Created"))
    ensures Status(out.0) == 400 <==> !NoneMissing(req) || !FormatsOk(req, toFloat)
    ensures NoneMissing(req) && !FormatsOk(req, toFloat) ==> out.0 == Reply(400, Error(InvalidFormat))
    ensures Status(out.0) == 201 <==> CreateAccepted(t, req, toFloat)
    ensures Status(out.0) == 409 <==>
      NoneMissing(req) && FormatsOk(req, toFloat) && t.lastId < MaxRowId && !CreateAccepted(t, req, toFloat)
    ensures Status(out.0) == 409 ==> out.0 == Reply(409, Error(NotUnique))
    ensures Status(out.0) == 500 <==> NoneMissing(req) && FormatsOk(req, toFloat) && t.lastId >= MaxRowId
    ensures Status(out.0) == 201 ==>
      out.1.lastId == t.lastId + 1 && out.1.rows.Keys == t.rows.Keys + {out.1.lastId}
    ensures Inv(t) ==> Inv(out.1)
  {
    var i := FirstMissing(req, RequiredFields);
    if i < |RequiredFields| then (Reply(400, Error(MissingField(RequiredFields[i]))), t)
    else if !FormatsOk(req, toFloat) then (Reply(400, Error(InvalidFormat)), t)
    else match Insert(t, Bound(req, toFloat), now)
      case Ok(t') => (Reply(201, Message("Created")), t')
      case Err(Integrity(_)) => (Reply(409, Error(NotUnique)), t)
      case Err(e) => (Raised(e), t)
  }

  /** The presence check names the first field, in `RequiredFields` order,
      that is absent, empty or `null`. */
  lemma CreateReportsFirstMissing(t: Table, req: Request, now: string, toFloat: FloatParser, i: nat)
    requires i < |RequiredFields| && Missing(req, RequiredFields[i])
    requires forall j :: 0 <= j < i ==> !Missing(req, RequiredFields[j])
    ensures CreateRevenue(t, req, now, toFloat) == (Reply(400, Error(MissingField(RequiredFields[i]))), t)
  {
  }

  /** A successful create adds exactly one row, holding the submitted fields
      and `now`, under an id above every id the table ever issued. */
  lemma CreateAddsOneRow(t: Table, req: Request, now: string, toFloat: FloatParser)
    requires Inv(t)
    requires Status(CreateRevenue(t, req, now, toFloat).0) == 201
    ensures var t' := CreateRevenue(t, req, now, toFloat).1;
      var id := t'.lastId;
      && id > t.lastId
      && (forall k :: k in t.rows ==> k < id)
      && t'.rows.Keys == t.rows.Keys + {id}
      && |t'.rows| == |t.rows| + 1
      && t'.rows[id].fields == Submitted(req, toFloat)
      && t'.rows[id].createdAt == now
      && (forall k :: k in t.rows ==> t'.rows[k] == t.rows[k])
  {
    var t' := CreateRevenue(t, req, now, toFloat).1;
    assert t'.lastId !in t.rows;
    assert |t'.rows.Keys| == |t.rows.Keys| + 1;
  }

  /** The submitted values land in the new row unchanged, except that an
      amount of -0.0 is read back as +0.0. */
  lemma SubmittedFields(req: Request, toFloat: FloatParser)
    requires NoneMissing(req) && FormatsOk(req, toFloat) && !IsNaN(Amount(req, toFloat))
    ensures AllPresent(req) && CheckNotNull(Bound(req, toFloat)).Ok?
    ensures var f := Submitted(req, toFloat);
      && Some(f.revenueId) == req["revenue_id"] && f.revenueId != ""
      && Some(f.date) == req["date"]
      && Some(f.source) == req["source"] && f.source != ""
      && f.amount == StoredAmount(Amount(req, toFloat))
      && (Amount(req, toFloat) != NegativeZero ==> f.amount == Amount(req, toFloat))
      && Some(f.category) == req["category"] && f.category != ""
  {
    assert RequiredFields[0] in RequiredFields && RequiredFields[2] in RequiredFields;
    assert RequiredFields[4] in RequiredFields;
  }

  /** `float("-0")` is -0.0; the create succeeds, and the row lists the
      amount as +0.0. */
  lemma NegativeZeroListedAsZero(t: Table, req: Request, now: string, toFloat: FloatParser)
    requires Inv(t) && CreateAccepted(t, req, toFloat)
    requires Amount(req, toFloat) == NegativeZero
    ensures var out := CreateRevenue(t, req, now, toFloat);
      out.0 == Reply(201, Message("Created")) && out.1.rows[out.1.lastId].fields.amount == Float(0)
  {
  }

  /** A second create with a `revenue_id` already taken is a conflict and
      leaves the table as the first create left it. */
  lemma DuplicateCreateConflicts(t: Table, req1: Request, req2: Request, now1: string, now2: string, toFloat: FloatParser)
    requires Inv(t)
    requires Status(CreateRevenue(t, req1, now1, toFloat).0) == 201
    requires NoneMissing(req2) && FormatsOk(req2, toFloat)
    requires "revenue_id" in req1 && "revenue_id" in req2 && req2["revenue_id"] == req1["revenue_id"]
    requires CreateRevenue(t, req1, now1, toFloat).1.lastId < MaxRowId
    ensures var t1 := CreateRevenue(t, req1, now1, toFloat).1;
      CreateRevenue(t1, req2, now2, toFloat) == (Reply(409, Error(NotUnique)), t1)
  {
    var t1 := CreateRevenue(t, req1, now1, toFloat).1;
    var rid := req2["revenue_id"].value;
    assert t1.rows[t1.lastId].fields.revenueId == rid by {
      CreateAddsOneRow(t, req1, now1, toFloat);
      SubmittedFields(req1, toFloat);
    }
    assert Holds(t1.rows, rid);
    assert !CreateAccepted(t1, req2, toFloat);
    var out2 := CreateRevenue(t1, req2, now2, toFloat);
    assert Status(out2.0) == 409;
  }

  /** A NaN amount binds as NULL, the NOT NULL check raises
      `IntegrityError`, and the handler reports it as a duplicate
      `revenue_id` although none exists. */
  lemma NaNAmountReportedAsDuplicate(t: Table, req: Request, now: string, toFloat: FloatParser)
    requires NoneMissing(req) && FormatsOk(req, toFloat) && t.lastId < MaxRowId
    requires IsNaN(Amount(req, toFloat))
    requires "revenue_id" in req && req["revenue_id"].Some? && !Holds(t.rows, req["revenue_id"].value)
    ensures CreateRevenue(t, req, now, toFloat) == (Reply(409, Error(NotUnique)), t)
  {
  }

  // ---------------------------------------------------------------------
  // PUT /api/revenues/<id>

  /** Everything an update needs to succeed. */
  predicate UpdateAccepted(t: Table, id: nat, req: Request, toFloat: FloatParser) {
    && AllPresent(req)
    && FormatsOk(req, toFloat)
    && id <= MaxRowId
    && id in t.rows
    && CheckNotNull(Bound(req, toFloat)).Ok?
    && !HeldByOther(t.rows, id, req["revenue_id"].value)
  }

  function UpdateRevenue(t: Table, id: nat, req: Request, toFloat: FloatParser): (out: (Response, Table))
    ensures out.1 == t || out.0 == Reply(200, Message("Updated"))
    ensures !AllPresent(req) ==> out == (Reply(400, Error(ExpectingAllFields)), t)
    ensures AllPresent(req) && !FormatsOk(req, toFloat) ==> out == (Reply(400, Error(InvalidFormat)), t)
    ensures Status(out.0) == 400 <==> !AllPresent(req) || !FormatsOk(req, toFloat)
    ensures Status(out.0) == 404 <==> AllPresent(req) && FormatsOk(req, toFloat) && id <= MaxRowId && id !in t.rows
    ensures Status(out.0) == 404 ==> out == (Reply(404, Error(NotFound)), t)
    ensures Status(out.0) == 200 <==> UpdateAccepted(t, id, req, toFloat)
    ensures Status(out.0) == 200 ==> out.0 == Reply(200, Message("Updated"))
    ensures Status(out.0) in {200, 400, 404, 500}
    ensures out.1.lastId == t.lastId && out.1.rows.Keys == t.rows.Keys
    ensures Inv(t) ==> Inv(out.1)
  {
    if !AllPresent(req) then (Reply(400, Error(ExpectingAllFields)), t)
    else if !FormatsOk(req, toFloat) then (Reply(400, Error(InvalidFormat)), t)
    else match Update(t, id, Bound(req, toFloat))
      case Err(e) => (Raised(e), t)
      case Ok((t', n)) =>
        if n == 0 then (Reply(404, Error(NotFound)), t')
        else (Reply(200, Message("Updated")), t')
  }

  /** A successful update replaces exactly the five fields of its row and
      keeps the row's id and `created_at`; no other row changes. */
  lemma UpdateReplacesFields(t: Table, id: nat, req: Request, toFloat: FloatParser)
    requires Status(UpdateRevenue(t, id, req, toFloat).0) == 200
    ensures var t' := UpdateRevenue(t, id, req, toFloat).1;
      && t'.lastId == t.lastId
      && t'.rows.Keys == t.rows.Keys
      && t'.rows[id].fields == Submitted(req, toFloat)
      && t'.rows[id].createdAt == t.rows[id].createdAt
      && (forall k :: k in t.rows && k != id ==> t'.rows[k] == t.rows[k])
  {
  }

  /** Update checks only that the keys are there: an empty `revenue_id` that
      create refuses is written by update. */
  lemma UpdateAcceptsEmptyRevenueId(t: Table, id: nat, req: Request, now: string, toFloat: FloatParser)
    requires id in t.rows && id <= MaxRowId
    requires AllPresent(req) && FormatsOk(req, toFloat)
    requires req["revenue_id"] == Some("")
    requires req["source"].Some? && req["category"].Some? && !IsNaN(Amount(req, toFloat))
    requires !HeldByOther(t.rows, id, "")
    ensures CreateRevenue(t, req, now, toFloat) == (Reply(400, Error(MissingField("revenue_id"))), t)
    ensures var out := UpdateRevenue(t, id, req, toFloat);
      out.0 == Reply(200, Message("Updated")) && out.1.rows[id].fields.revenueId == ""
  {
    CreateReportsFirstMissing(t, req, now, toFloat, 0);
  }

  /** A `revenue_id` another row holds makes the UNIQUE constraint roll the
      update back; the handler does not catch the error. */
  lemma UpdateCollisionRollsBack(t: Table, id: nat, other: nat, req: Request, toFloat: FloatParser)
    requires AllPresent(req) && FormatsOk(req, toFloat)
    requires id in t.rows && id <= MaxRowId
    requires CheckNotNull(Bound(req, toFloat)).Ok?
    requires other in t.rows && other != id && Some(t.rows[other].fields.revenueId) == req["revenue_id"]
    ensures UpdateRevenue(t, id, req, toFloat) == (Raised(Integrity(Unique("revenue_id"))), t)
  {
    assert HeldByOther(t.rows, id, req["revenue_id"].value);
  }

  /** A `null` text column passes update's presence check, then fails the
      NOT NULL constraint on an existing row; the error escapes. */
  lemma UpdateNullRevenueIdRaises(t: Table, id: nat, req: Request, toFloat: FloatParser)
    requires AllPresent(req) && FormatsOk(req, toFloat)
    requires id in t.rows && id <= MaxRowId
    requires req["revenue_id"] == None
    ensures UpdateRevenue(t, id, req, toFloat) == (Raised(Integrity(NotNull("revenue_id"))), t)
  {
  }

  // ---------------------------------------------------------------------
  // DELETE /api/revenues/<id>

  function DeleteRevenue(t: Table, id: nat): (out: (Response, Table))
    ensures out.1 == t || out.0 == Reply(200, Message("Deleted"))
    ensures Status(out.0) == 200 <==> id <= MaxRowId && id in t.rows
    ensures Status(out.0) == 404 <==> id <= MaxRowId && id !in t.rows
    ensures Status(out.0) == 404 ==> out == (Reply(404, Error(NotFound)), t)
    ensures Status(out.0) == 500 <==> id > MaxRowId
    ensures Status(out.0) == 200 ==>
      && out.1.lastId == t.lastId
      && out.1.rows.Keys == t.rows.Keys - {id}
      && (forall k :: k in out.1.rows ==> out.1.rows[k] == t.rows[k])
    ensures out.1.lastId == t.lastId && out.1.rows.Keys <= t.rows.Keys
    ensures Inv(t) ==> Inv(out.1)
  {
    match Delete(t, id)
    case Err(e) => (Raised(e), t)
    case Ok((t', n)) =>
      if n == 0 then (Reply(404, Error(NotFound)), t')
      else (Reply(200, Message("Deleted")), t')
  }

  /** Deleting a row succeeds once; deleting it again finds nothing and
      changes nothing. */
  lemma DeleteTwice(t: Table, id: nat)
    requires id in t.rows && id <= MaxRowId
    ensures var first := DeleteRevenue(t, id);
      && first.0 == Reply(200, Message("Deleted"))
      && id !in first.1.rows
      && DeleteRevenue(first.1, id) == (Reply(404, Error(NotFound)), first.1)
  {
  }

  // ---------------------------------------------------------------------
  // GET /api/revenues

  /** Every row once, newest `date` text first, then newest id first. The
      table is read, not written. */
  method ListRevenues(t: Table) returns (resp: Response)
    ensures resp.Reply? && resp.status == 200 && resp.body.Entries?
    ensures Sorted(resp.body.rows)
    ensures |resp.body.rows| == |t.rows| && Ids(resp.body.rows) == t.rows.Keys
    ensures forall i :: 0 <= i < |resp.body.rows| ==>
      resp.body.rows[i].id in t.rows && t.rows[resp.body.rows[i].id] == resp.body.rows[i].entry
  {
    var rows := SelectOrdered(t.rows);
    resp := Reply(200, Entries(rows));
  }
}

=== FILE: history.dfy ===
/**
 Sequences of requests against one table. The handlers share nothing but
 the table, so a history is the handlers applied one after another.
 */
module History {
  import opened Wrappers
  import opened Table
  import opened Validation
  import opened Handlers

  /** A request that may write; listing only reads. */
  datatype Op =
    | Create(req: Request, now: string)
    | Put(id: nat, req: Request)
    | Remove(id: nat)

  function Step(t: Table, op: Op, toFloat: FloatParser): (Response, Table) {
    match op
    case Create(req, now) => CreateRevenue(t, req, now, toFloat)
    case Put(id, req) => UpdateRevenue(t, id, req, toFloat)
    case Remove(id) => DeleteRevenue(t, id)
  }

  /** Runs `ops` in order: the final table, and the ids the successful
      creates were given, in order. Ids are issued one after another above
      the largest id ever issued before, so none is issued twice, and the
      only ids that appear are old ones and newly issued ones. */
  function Run(t: Table, ops: seq<Op>, toFloat: FloatParser): (r: (Table, seq<nat>))
    ensures r.0.lastId == t.lastId + |r.1|
    ensures forall i :: 0 <= i < |r.1| ==> r.1[i] == t.lastId + i + 1
    ensures forall k :: k in r.0.rows ==> k in t.rows || k in r.1
    ensures Inv(t) ==> Inv(r.0)
    decreases |ops|
  {
    if |ops| == 0 then (t, [])
    else
      var (resp, t1) := Step(t, ops[0], toFloat);
      var issued := if ops[0].Create? && Status(resp) == 201 then [t1.lastId] else [];
      var (tn, later) := Run(t1, ops[1..], toFloat);
      (tn, issued + later)
  }

  /** On a table `init_db` has just created, the successful creates of any
      history get the ids 1, 2, 3, ... in order, whatever else the history
      does. */
  lemma {:induction false} FreshTableIssuesFromOne(ops: seq<Op>, toFloat: FloatParser)
    ensures var issued := Run(CreateIfNotExists(None), ops, toFloat).1;
      forall i :: 0 <= i < |issued| ==> issued[i] == i + 1
  {
    var t := CreateIfNotExists(None);
    assert t.lastId == 0;
  }

  /** No two creates of a history are given the same id, and none is given
      an id present before the history began. */
  lemma IdsNeverReused(t: Table, ops: seq<Op>, toFloat: FloatParser)
    requires Inv(t)
    ensures var issued := Run(t, ops, toFloat).1;
      && (forall i, j :: 0 <= i < j < |issued| ==> issued[i] < issued[j])
      && (forall i, k :: 0 <= i < |issued| && k in t.rows ==> issued[i] != k)
  {
  }

  /** An id, once issued and then deleted, is never issued again and never
      reappears. */
  lemma DeletedIdNeverReissued(t: Table, id: nat, ops: seq<Op>, toFloat: FloatParser)
    requires id <= t.lastId <= MaxRowId
    ensures var after := Run(DeleteRevenue(t, id).1, ops, toFloat);
      id !in after.1 && id !in after.0.rows
  {
    var t1 := DeleteRevenue(t, id).1;
    assert t1.lastId == t.lastId && id !in t1.rows;
    var after := Run(t1, ops, toFloat);
    assert forall i :: 0 <= i < |after.1| ==> after.1[i] > id;
  }
}

=== FILE: listing.dfy ===
/**
 The listing query: every row of `revenues`, the latest `date` first, and
 among equal dates the largest `id` first.

 `date` is a TEXT column, so SQLite compares it with the BINARY collation:
 byte by byte over the UTF-8 encoding, a proper prefix first. UTF-8 keeps
 code point order, so that is the lexicographic order on characters here,
 and `2024-2-1` compares greater than `2024-12-01`, so it is listed first,
 although it is the earlier date.
 */
module Listing {
  import opened Table

  /** The BINARY collation: `a` sorts strictly before `b`. */
  predicate TextLess(a: string, b: string)
    decreases |a|
  {
    |b| > 0 && (|a| == 0 || a[0] < b[0] || (a[0] == b[0] && TextLess(a[1..], b[1..])))
  }

  lemma {:induction false} TextLessIrreflexive(a: string)
    ensures !TextLess(a, a)
    decreases |a|
  {
    if |a| > 0 {
      TextLessIrreflexive(a[1..]);
    }
  }

  lemma {:induction false} TextLessAsymmetric(a: string, b: string)
    ensures TextLess(a, b) ==> !TextLess(b, a)
    decreases |a|
  {
    if |a| > 0 && |b| > 0 && a[0] == b[0] {
      TextLessAsymmetric(a[1..], b[1..]);
    }
  }

  lemma {:induction false} TextLessTransitive(a: string, b: string, c: string)
    requires TextLess(a, b) && TextLess(b, c)
    ensures TextLess(a, c)
    decreases |a|
  {
    if |a| > 0 && a[0] == b[0] && b[0] == c[0] {
      TextLessTransitive(a[1..], b[1..], c[1..]);
    }
  }

  lemma {:induction false} TextLessTotal(a: string, b: string)
    ensures a == b || TextLess(a, b) || TextLess(b, a)
    decreases |a|
  {
    if |a| > 0 && |b| > 0 && a[0] == b[0] {
      TextLessTotal(a[1..], b[1..]);
      if a[1..] == b[1..] {
        assert a == [a[0]] + a[1..] && b == [b[0]] + b[1..];
      }
    }
  }

  /** A common prefix does not change the order. */
  lemma {:induction false} TextLessAfterPrefix(p: string, a: string, b: string)
    requires TextLess(a, b)
    ensures TextLess(p + a, p + b)
    decreases |p|
  {
    if |p| == 0 {
      assert p + a == a && p + b == b;
    } else {
      TextLessAfterPrefix(p[1..], a, b);
      assert (p + a)[0] == p[0] == (p + b)[0];
      assert (p + a)[1..] == p[1..] + a && (p + b)[1..] == p[1..] + b;
    }
  }

  /** `x` is listed before `y`: a later `date` text first, then a larger `id`. */
  predicate Before(x: Row, y: Row) {
    || TextLess(y.entry.fields.date, x.entry.fields.date)
    || (x.entry.fields.date == y.entry.fields.date && x.id > y.id)
  }

  lemma BeforeAsymmetric(x: Row, y: Row)
    ensures Before(x, y) ==> !Before(y, x)
  {
    TextLessAsymmetric(x.entry.fields.date, y.entry.fields.date);
    TextLessIrreflexive(x.entry.fields.date);
  }

  lemma BeforeTransitive(x: Row, y: Row, z: Row)
    requires Before(x, y) && Before(y, z)
    ensures Before(x, z)
  {
    var dx, dy, dz := x.entry.fields.date, y.entry.fields.date, z.entry.fields.date;
    if TextLess(dy, dx) && TextLess(dz, dy) {
      TextLessTransitive(dz, dy, dx);
    }
  }

  lemma BeforeTotal(x: Row, y: Row)
    requires x.id != y.id
    ensures Before(x, y) || Before(y, x)
  {
    TextLessTotal(x.entry.fields.date, y.entry.fields.date);
  }

  /** Listed in `ORDER BY date DESC, id DESC` order. */
  predicate Sorted(xs: seq<Row>) {
    forall i, j :: 0 <= i < j < |xs| ==> Before(xs[i], xs[j])
  }

  function Ids(xs: seq<Row>): set<nat> {
    set i | 0 <= i < |xs| :: xs[i].id
  }

  lemma IdsCons(y: Row, ys: seq<Row>)
    ensures Ids([y] + ys) == {y.id} + Ids(ys)
  {
    var r := [y] + ys;
    assert r[0] == y;
    forall i | 0 <= i < |ys| ensures r[i + 1] == ys[i] { }
  }

  lemma SortedCons(y: Row, ys: seq<Row>)
    requires Sorted(ys)
    requires forall k :: 0 <= k < |ys| ==> Before(y, ys[k])
    ensures Sorted([y] + ys)
  {
    var r := [y] + ys;
    forall i, j | 0 <= i < j < |r| ensures Before(r[i], r[j]) {
      assert r[j] == ys[j - 1];
      if i > 0 {
        assert r[i] == ys[i - 1];
      }
    }
  }

  /** Places `x` among the sorted `xs`. */
  function InsertSorted(xs: seq<Row>, x: Row): (r: seq<Row>)
    requires Sorted(xs) && x.id !in Ids(xs)
    ensures |r| == |xs| + 1
    ensures Ids(r) == Ids(xs) + {x.id}
    ensures forall i :: 0 <= i < |r| ==> r[i] == x || r[i] in xs
    ensures Sorted(r)
    decreases |xs|
  {
    if |xs| == 0 then
      IdsCons(x, []);
      SortedCons(x, []);
      [x] + []
    else if Before(x, xs[0]) then
      forall j | 0 <= j < |xs| ensures Before(x, xs[j]) {
        if j > 0 { BeforeTransitive(x, xs[0], xs[j]); }
      }
      IdsCons(x, xs);
      SortedCons(x, xs);
      [x] + xs
    else
      assert xs == [xs[0]] + xs[1..];
      IdsCons(xs[0], xs[1..]);
      BeforeTotal(x, xs[0]);
      var rest := InsertSorted(xs[1..], x);
      forall k | 0 <= k < |rest| ensures Before(xs[0], rest[k]) {
        if rest[k] != x {
          var m :| 0 <= m < |xs[1..]| && xs[1..][m] == rest[k];
          assert xs[m + 1] == rest[k];
        }
      }
      IdsCons(xs[0], rest);
      SortedCons(xs[0], rest);
      [xs[0]] + rest
  }

  /** Every row of `xs` is a row of the table, with its stored contents. */
  predicate FromRows(rows: map<nat, Entry>, xs: seq<Row>) {
    forall i :: 0 <= i < |xs| ==> xs[i].id in rows && rows[xs[i].id] == xs[i].entry
  }

  lemma FromRowsInsert(rows: map<nat, Entry>, xs: seq<Row>, x: Row, r: seq<Row>)
    requires FromRows(rows, xs) && x.id in rows && rows[x.id] == x.entry
    requires forall i :: 0 <= i < |r| ==> r[i] == x || r[i] in xs
    ensures FromRows(rows, r)
  {
    forall i | 0 <= i < |r| ensures r[i].id in rows && rows[r[i].id] == r[i].entry {
      if r[i] != x {
        var k :| 0 <= k < |xs| && xs[k] == r[i];
      }
    }
  }

  /** The rows of the table, each once, in listing order. */
  method SelectOrdered(rows: map<nat, Entry>) returns (out: seq<Row>)
    ensures Sorted(out)
    ensures |out| == |rows|
    ensures Ids(out) == rows.Keys
    ensures forall i :: 0 <= i < |out| ==> out[i].id in rows && rows[out[i].id] == out[i].entry
  {
    out := [];
    var remaining := rows.Keys;
    while remaining != {}
      invariant remaining <= rows.Keys
      invariant Sorted(out)
      invariant Ids(out) == rows.Keys - remaining
      invariant |out| + |remaining| == |rows.Keys|
      invariant FromRows(rows, out)
      decreases remaining
    {
      var id :| id in remaining;
      var row := Row(id, rows[id]);
      var next := InsertSorted(out, row);
      FromRowsInsert(rows, out, row, next);
      out := next;
      remaining := remaining - {id};
    }
  }

  /** Two sorted sequences that hold each other's first rows start alike. */
  lemma SortedHeads(a: seq<Row>, b: seq<Row>)
    requires Sorted(a) && Sorted(b) && |a| > 0 && |b| > 0
    requires a[0] in b && b[0] in a
    ensures a[0] == b[0]
  {
    var k :| 0 <= k < |b| && b[k] == a[0];
    var l :| 0 <= l < |a| && a[l] == b[0];
    if k > 0 && l > 0 {
      BeforeAsymmetric(a[0], b[0]);
      assert false;
    }
  }

  /** The ordering key is total, so the listing is determined: two sorted
      sequences holding the same rows are equal. */
  lemma {:induction false} SortedUnique(a: seq<Row>, b: seq<Row>)
    requires Sorted(a) && Sorted(b)
    requires forall x :: x in a <==> x in b
    ensures a == b
    decreases |a|
  {
    assert |b| == 0 || b[0] in b;
    if |a| == 0 {
    } else {
      assert a[0] in b;
      assert b[0] in b;
      SortedHeads(a, b);
      forall x ensures x in a[1..] <==> x in b[1..] {
        if x in a[1..] {
          var k :| 0 <= k < |a[1..]| && a[1..][k] == x;
          assert a[k + 1] == x;
          BeforeAsymmetric(a[0], x);
          assert x in b;
          var m :| 0 <= m < |b| && b[m] == x;
          assert m != 0;
          assert b[1..][m - 1] == x;
        }
        if x in b[1..] {
          var k :| 0 <= k < |b[1..]| && b[1..][k] == x;
          assert b[k + 1] == x;
          BeforeAsymmetric(b[0], x);
          assert x in a;
          var m :| 0 <= m < |a| && a[m] == x;
          assert m != 0;
          assert a[1..][m - 1] == x;
        }
      }
      SortedUnique(a[1..], b[1..]);
      assert a == [a[0]] + a[1..] && b == [b[0]] + b[1..];
    }
  }

  /** An example row: its id, its own `revenue_id`, and its `date`. */
  function At(id: nat, revenueId: string, date: string): Row {
    Row(id, Entry(Fields(revenueId, date, "s", Float(0), "c"), "t"))
  }

  lemma Sorted3(x: Row, y: Row, z: Row)
    requires Before(x, y) && Before(y, z)
    ensures Sorted([x, y, z])
  {
    BeforeTransitive(x, y, z);
  }

  lemma ThreeDatesSorted()
    ensures Sorted([At(2, "r2", "2024-03-01"), At(3, "r3", "2024-02-01"), At(1, "r1", "2024-01-01")])
  {
    TextLessAfterPrefix("2024-0", "2-01", "3-01");
    TextLessAfterPrefix("2024-0", "1-01", "2-01");
    Sorted3(At(2, "r2", "2024-03-01"), At(3, "r3", "2024-02-01"), At(1, "r1", "2024-01-01"));
  }

  /** Entries dated 2024-01-01, 2024-03-01 and 2024-02-01, created in that
      order, are listed March, February, January. */
  lemma ThreeDatesListed(out: seq<Row>)
    requires Sorted(out)
    requires forall x :: x in out <==> x in [At(1, "r1", "2024-01-01"), At(2, "r2", "2024-03-01"), At(3, "r3", "2024-02-01")]
    ensures out == [At(2, "r2", "2024-03-01"), At(3, "r3", "2024-02-01"), At(1, "r1", "2024-01-01")]
  {
    var expected := [At(2, "r2", "2024-03-01"), At(3, "r3", "2024-02-01"), At(1, "r1", "2024-01-01")];
    ThreeDatesSorted();
    forall x ensures x in out <==> x in expected {
      var given := [At(1, "r1", "2024-01-01"), At(2, "r2", "2024-03-01"), At(3, "r3", "2024-02-01")];
      assert x in given <==> x == given[0] || x == given[1] || x == given[2];
      assert x in expected <==> x == given[1] || x == given[2] || x == given[0];
    }
    SortedUnique(out, expected);
  }

  /** Dates are ordered as text: the later calendar date 2024-12-01 is
      listed after 2024-2-1, because '1' sorts before '2'. */
  lemma TextOrderIsNotDateOrder()
    ensures Before(At(1, "r1", "2024-2-1"), At(2, "r2", "2024-12-01"))
  {
    assert TextLess("12-01", "2-1");
    TextLessAfterPrefix("2024-", "12-01", "2-1");
    assert "2024-" + "12-01" == "2024-12-01" && "2024-" + "2-1" == "2024-2-1";
  }
}

=== FILE: table.dfy ===
/**
 The `revenues` table of `init_db` and the three SQL statements the handlers
 run against it, with the constraints SQLite enforces on them. The table
 has an AUTOINCREMENT integer key; a unique, non-null text `revenue_id`;
 non-null text `date`, `source` and `category`; a non-null REAL `amount`;
 and a `created_at` text that defaults to the insertion time.

 A statement either applies completely or fails and leaves the table as it
 was; a failure is the exception the statement raises in Python.
 */
module Table {
  import opened Wrappers

  /** A Python float, as the IEEE 754 binary64 bit pattern it binds as. */
  datatype Float = Float(bits: bv64)

  /** SQLite stores a NaN as NULL. */
  predicate IsNaN(f: Float) {
    (f.bits >> 52) & 0x7FF == 0x7FF && f.bits & 0xF_FFFF_FFFF_FFFF != 0
  }

  /** Negative zero, the one float a REAL column does not give back bit for
      bit. */
  const NegativeZero: Float := Float(0x8000_0000_0000_0000)

  /** The float a REAL column reads back. Its affinity stores a float equal
      to an integer as that integer and turns it back into a float when
      read; that round trip keeps every float except -0.0, which equals the
      integer 0 and comes back as +0.0. */
  function StoredAmount(f: Float): (g: Float)
    ensures g != NegativeZero
    ensures IsNaN(g) <==> IsNaN(f)
    ensures f != NegativeZero ==> g == f
    ensures f == NegativeZero ==> g == Float(0)
  {
    if f == NegativeZero then Float(0) else f
  }

  /** The largest rowid SQLite can issue, and the largest integer it binds. */
  const MaxRowId: int := 0x7FFF_FFFF_FFFF_FFFF

  /** The five columns the handlers write. */
  datatype Fields = Fields(revenueId: string, date: string, source: string, amount: Float, category: string)

  /** A stored row without its key; `createdAt` is `datetime('now')` at insertion. */
  datatype Entry = Entry(fields: Fields, createdAt: string)

  /** A row as `SELECT *` returns it. */
  datatype Row = Row(id: nat, entry: Entry)

  /** The table: rows by `id`, and the largest `id` ever issued (the
      `sqlite_sequence` entry that AUTOINCREMENT keeps). */
  datatype Table = Table(rows: map<nat, Entry>, lastId: nat)

  /** The table right after `CREATE TABLE`. */
  const Empty: Table := Table(map[], 0)

  /** The columns as a later `SELECT` reads them back. */
  function Stored(f: Fields): Fields {
    f.(amount := StoredAmount(f.amount))
  }

  /** The parameters bound to an INSERT or UPDATE: the text columns may be
      NULL (a JSON `null`); `date` has passed `strptime`, so it is text. */
  datatype Values = Values(revenueId: Option<string>, date: string, source: Option<string>, amount: Float, category: Option<string>)

  datatype Constraint = NotNull(column: string) | Unique(column: string)

  /** The exceptions a statement can raise. */
  datatype DbError =
    | Integrity(violated: Constraint)  // sqlite3.IntegrityError
    | Full                             // SQLITE_FULL: no rowid left to issue
    | Overflow                         // OverflowError binding an integer above 2^63 - 1

  // ---------------------------------------------------------------------
  // Schema constraints

  predicate Holds(rows: map<nat, Entry>, revenueId: string) {
    exists j :: j in rows && rows[j].fields.revenueId == revenueId
  }

  predicate HeldByOther(rows: map<nat, Entry>, id: nat, revenueId: string) {
    exists j :: j in rows && j != id && rows[j].fields.revenueId == revenueId
  }

  /** `revenue_id ... UNIQUE`. */
  predicate UniqueRevenueIds(rows: map<nat, Entry>) {
    forall i, j :: i in rows && j in rows && rows[i].fields.revenueId == rows[j].fields.revenueId ==> i == j
  }

  /** What SQLite guarantees of every state of the table. */
  predicate Valid(t: Table) {
    && t.lastId <= MaxRowId
    && (forall id :: id in t.rows ==> 1 <= id <= t.lastId)
    && (forall id :: id in t.rows ==> !IsNaN(t.rows[id].fields.amount))
    && UniqueRevenueIds(t.rows)
  }

  /** The NOT NULL checks, in column order. */
  function CheckNotNull(v: Values): (r: Result<Fields, DbError>)
    ensures r.Ok? <==> v.revenueId.Some? && v.source.Some? && !IsNaN(v.amount) && v.category.Some?
    ensures r.Ok? ==> r.value == Fields(v.revenueId.value, v.date, v.source.value, v.amount, v.category.value)
    ensures r.Err? ==> r.error.Integrity? && r.error.violated.NotNull?
  {
    if v.revenueId.None? then Err(Integrity(NotNull("revenue_id")))
    else if v.source.None? then Err(Integrity(NotNull("source")))
    else if IsNaN(v.amount) then Err(Integrity(NotNull("amount")))
    else if v.category.None? then Err(Integrity(NotNull("category")))
    else Ok(Fields(v.revenueId.value, v.date, v.source.value, v.amount, v.category.value))
  }

  // ---------------------------------------------------------------------
  // Statements

  /** `INSERT INTO revenues (revenue_id, date, source, amount, category)`.
      The row holds the columns as REAL affinity stores them. AUTOINCREMENT issues one more than the largest id ever issued (which,
      in a valid table, is at least every id present) and fails once that
      id would pass the largest rowid; then the NOT NULL and UNIQUE checks
      run. */
  function Insert(t: Table, v: Values, now: string): (r: Result<Table, DbError>)
    ensures r.Ok? <==> t.lastId < MaxRowId && CheckNotNull(v).Ok? && !Holds(t.rows, v.revenueId.value)
    ensures r.Err? && t.lastId < MaxRowId ==> r.error.Integrity?
    ensures r.Ok? ==> var id := r.value.lastId;
      && id == t.lastId + 1
      && r.value.rows.Keys == t.rows.Keys + {id}
      && r.value.rows[id] == Entry(Stored(CheckNotNull(v).value), now)
      && r.value.rows[id].fields.amount == StoredAmount(v.amount)
      && (forall k :: k in t.rows && k != id ==> r.value.rows[k] == t.rows[k])
    ensures Valid(t) && r.Ok? ==> Valid(r.value) && r.value.lastId !in t.rows
  {
    if t.lastId >= MaxRowId then Err(Full)
    else match CheckNotNull(v)
      case Err(e) => Err(e)
      case Ok(f) =>
        if Holds(t.rows, f.revenueId) then Err(Integrity(Unique("revenue_id")))
        else Ok(Table(t.rows[t.lastId + 1 := Entry(Stored(f), now)], t.lastId + 1))
  }

  /** `UPDATE revenues SET ... WHERE id=?`, with the number of rows it
      changed. No row matched means no constraint is checked; otherwise the
      NOT NULL and UNIQUE checks run against every other row. */
  function Update(t: Table, id: nat, v: Values): (r: Result<(Table, nat), DbError>)
    ensures r.Err? <==> id > MaxRowId || (id in t.rows && (CheckNotNull(v).Err? || HeldByOther(t.rows, id, v.revenueId.value)))
    ensures r.Ok? && r.value.1 == 0 <==> id <= MaxRowId && id !in t.rows
    ensures r.Ok? ==> r.value.1 <= 1 && (r.value.1 == 0 ==> r.value.0 == t)
    ensures r.Ok? && r.value.1 == 1 ==>
      && r.value.0.lastId == t.lastId
      && r.value.0.rows.Keys == t.rows.Keys
      && r.value.0.rows[id] == Entry(Stored(CheckNotNull(v).value), t.rows[id].createdAt)
      && r.value.0.rows[id].fields.amount == StoredAmount(v.amount)
      && (forall k :: k in t.rows && k != id ==> r.value.0.rows[k] == t.rows[k])
    ensures Valid(t) && r.Ok? ==> Valid(r.value.0)
  {
    if id > MaxRowId then Err(Overflow)
    else if id !in t.rows then Ok((t, 0))
    else match CheckNotNull(v)
      case Err(e) => Err(e)
      case Ok(f) =>
        if HeldByOther(t.rows, id, f.revenueId) then Err(Integrity(Unique("revenue_id")))
        else Ok((Table(t.rows[id := Entry(Stored(f), t.rows[id].createdAt)], t.lastId), 1))
  }

  /** `DELETE FROM revenues WHERE id=?`, with the number of rows it removed.
      The sequence keeps its value, so the id is not issued again. */
  function Delete(t: Table, id: nat): (r: Result<(Table, nat), DbError>)
    ensures r.Err? <==> id > MaxRowId
    ensures r.Ok? ==> (r.value.1 == 1 <==> id in t.rows) && r.value.1 <= 1
    ensures r.Ok? ==>
      && r.value.0.lastId == t.lastId
      && r.value.0.rows.Keys == t.rows.Keys - {id}
      && (forall k :: k in r.value.0.rows ==> r.value.0.rows[k] == t.rows[k])
    ensures Valid(t) && r.Ok? ==> Valid(r.value.0)
  {
    if id > MaxRowId then Err(Overflow)
    else if id in t.rows then Ok((Table(t.rows - {id}, t.lastId), 1))
    else Ok((t, 0))
  }

  /** `CREATE TABLE IF NOT EXISTS`: an existing table is kept as it is; a
      new one holds no rows and has issued no id, so the first insert gets
      id 1. */
  function CreateIfNotExists(existing: Option<Table>): (t: Table)
    ensures existing.Some? ==> t == existing.value
    ensures existing.None? ==> t.rows == map[] && t.lastId == 0 && Valid(t)
  {
    if existing.Some? then existing.value else Empty
  }
}

=== FILE: validation.dfy ===
/**
 The checks the create and update handlers make on a request body before
 touching the table: which fields must be there, and whether `date` and
 `amount` parse.
 */
module Validation {
  import opened Wrappers
  import opened Dates
  import opened Table

  /** A decoded JSON body: each key maps to a string or to `null`. */
  type Request = map<string, Option<string>>

  /** Python's `float()` on a string: the float it returns, or `None` where
      it raises. */
  type FloatParser = string -> Option<Float>

  /** The five client-supplied columns, in the order both handlers check them. */
  const RequiredFields: seq<string> := ["revenue_id", "date", "source", "amount", "category"]

  /** Create's test of one key: absent, or sent as the empty string or as
      `null`. */
  predicate Missing(req: Request, k: string) {
    k !in req || req[k] == None || req[k] == Some("")
  }

  /** The create handler's presence check passes. */
  predicate NoneMissing(req: Request) {
    forall k :: k in RequiredFields ==> !Missing(req, k)
  }

  /** The update handler's presence check passes: keys only, values unchecked. */
  predicate AllPresent(req: Request) {
    forall k :: k in RequiredFields ==> k in req
  }

  /** What the create handler's presence check guarantees of one field. */
  lemma NotMissing(req: Request, k: string)
    requires NoneMissing(req) && k in RequiredFields
    ensures k in req && req[k].Some? && req[k].value != ""
  {
    assert !Missing(req, k);
  }

  /** The position of the first key of `keys` that is missing, or `|keys|`. */
  function FirstMissing(req: Request, keys: seq<string>): (i: nat)
    ensures i <= |keys|
    ensures forall j :: 0 <= j < i ==> !Missing(req, keys[j])
    ensures i < |keys| ==> Missing(req, keys[i])
    decreases |keys|
  {
    if |keys| == 0 then 0
    else if Missing(req, keys[0]) then 0
    else 1 + FirstMissing(req, keys[1..])
  }

  /** Create's check passes on exactly the bodies update's check passes on
      whose five values are neither empty nor `null`. */
  lemma PresenceAsymmetry(req: Request)
    ensures NoneMissing(req) <==> AllPresent(req) && forall k :: k in RequiredFields ==> req[k] != None && req[k] != Some("")
  {
  }

  /** `datetime.strptime(value, "%Y-%m-%d")` returns; a `null` raises `TypeError`. */
  predicate DateParses(v: Option<string>) {
    v.Some? && ParseDate(v.value).Some?
  }

  /** Both statements of the `try` block return: the date parses and
      `float()` accepts the amount (`float(None)` raises `TypeError`). */
  predicate FormatsOk(req: Request, toFloat: FloatParser) {
    && "date" in req && DateParses(req["date"])
    && "amount" in req && req["amount"].Some? && toFloat(req["amount"].value).Some?
  }

  /** The float the handlers bind for the amount: what `float()` returns on
      the submitted text. */
  function Amount(req: Request, toFloat: FloatParser): Float
    requires FormatsOk(req, toFloat)
  {
    toFloat(req["amount"].value).value
  }

  /** The parameters a body binds to its INSERT or UPDATE. */
  function Bound(req: Request, toFloat: FloatParser): (v: Values)
    requires AllPresent(req) && FormatsOk(req, toFloat)
    ensures ParseDate(v.date).Some?
  {
    Values(req["revenue_id"], req["date"].value, req["source"], Amount(req, toFloat), req["category"])
  }
}

=== FILE: wrappers.dfy ===
/** Failure-carrying values shared by the other modules. */
module Wrappers {

  /** A value that may be absent: a JSON `null` or a missing result. */
  datatype Option<+T> = None | Some(value: T)

  /** The outcome of a statement that either succeeds with a value or raises. */
  datatype Result<+R, +E> = Ok(value: R) | Err(error: E)
}
